=== FILE: README.md ===
# Virtual chiller device: a Dafny model

virtualDeviceChiller emulates a laboratory chiller on a serial line. It also
ships a small controller script that drives it. Both sides speak a
line-oriented protocol. Every record ends in CR (0x0d).

- **Query**: `ENQ <command>`, followed by two checksum characters as the
  controller sends it.
- **Data record**: `STX <command> d d d d ETX <c1> <c2>`, where the four
  digits are a temperature with two decimals and the point left out.
- **Acknowledgement**: `ACK`.

The checksum is the byte sum, modulo 256, of the characters from index 1
up to the first ETX. The sum also stops once the index passes the record's
length minus 4. It is written as two characters, each nibble plus `'0'`,
so nibble 10 is `':'`.

The device keeps one piece of state, the stored setpoint, which starts at
13 degrees. For each record it reads, it does the following:

- It verifies the checksum and only logs the verdict. Its diagnostic line,
  however, raises whenever the computed sum is below 16, which ends the
  main loop (see Findings).
- It stores the payload of any data record whose payload `float()` can read,
  and acknowledges it.
- It answers a query for command `'1'` with the stored setpoint.
- It answers a query for `'2'` with a fixed internal-sensor reading of
  42.43 degrees.
- It says nothing to anything else.

The controller decodes data replies into text such as `"13.00 degrees"`.

The model has five modules:

- `Wire`: the control and command codes, the exceptions the code can raise
  (`Fault`), a `Result` type, and Python's clamped slicing.
- `ChecksumEngine`: the summing loop (`ComputeChecksum`, proved against the
  function `Checksum`), the nibble rendering, and verification. Verification
  comes twice: as written, and corrected.
- `Temperature`: temperatures as integer hundredths of a degree. It holds the
  `%05.2f` rendering and the `float()` reading of a setpoint, with both round
  trips proved.
- `Device`:
  - The reply frames and the encoder `ReturnTemperature`.
  - One pass of the main loop as the function `Respond`, with the corrected
    verification, and as `RespondAsWritten`. Both share `Dispatch`, the
    branch on the control byte. `packet_type` and `get_enq_command` appear
    there as `PacketType` and `EnqCommand`.
  - A finite run of the loop as `Run`.
  - The class `EmulatedDevice`, whose `temperature` field is updated in
    place. Its `Step` and `Serve` methods are proved against `Respond` and
    `Run`.
- `Client`: `decode_temp`, plus the records the controller script sends,
  used as test vectors. The whole script is shown to produce the readings
  13.00, 30.00, 42.43 and 42.43.

Behaviours of the code that are easy to miss:

- The device verifies every record, queries included. The controller's
  queries carry two checksum characters (`05 31 33 31 0d`), not the bare
  `05 31 0d`. The bare form makes verification raise (see Findings).
- Verification raises for every record whose computed sum is below 16. That
  covers every record of three or four characters, and every setpoint
  record whose four digits add up to 15..30, such as 39.30.
- The record the device reads keeps its CR terminator. The claimed checksum
  therefore sits at `p[-3]` and `p[-2]`.
- An unknown control byte is not a decode failure. It just gets no reply.
  A record shorter than three characters, or a data record whose payload is
  not a number, raises and ends the main loop.
- The device's own replies never pass its own verification
  (`Device.ReplyFailsVerification`). The encoder takes the checksum of the
  7-character body before the checksum characters exist, and the `len - 4`
  cut then keeps only the command byte and the first two digits.

## Model

| member | source | states |
|---|---|---|
| ChecksumEngine.ScanEnd | device.py:106-110 | the loop stops at the first index from `i` that is an ETX or lies past `len - 4`; every index before it is inside `len - 4` and not an ETX |
| ChecksumEngine.Counted | device.py:103-111 | the counted characters are `p[1..end)` for that stop index and contain no ETX |
| ChecksumEngine.Checksum | device.py:103-111 | the checksum of a record is a byte (below 256) |
| ChecksumEngine.ComputeChecksum | device.py:103-111 | the byte-wise loop with an 8-bit accumulator returns the sum of the counted characters modulo 256 |
| ChecksumEngine.NibbleChar | device.py:90-91 | a nibble is rendered as a character in `'0'..'?'` |
| ChecksumEngine.LowNibble | device.py:124 | `& 0x0f` yields a nibble |
| ChecksumEngine.ClaimedChecksum | device.py:124 | the checksum a record claims from `p[-3]` and `p[-2]` is a byte |
| ChecksumEngine.RenderChecksum | device.py:89-91 | the two characters of a sum lie in `'0'..'?'` and decode with `& 0x0f` back to the sum |
| ChecksumEngine.RenderChecksumUnique | device.py:124 | two characters in `'0'..'?'` are the rendering of the sum they decode to |
| ChecksumEngine.VerifyChecksum | device.py:122-134 | raises IndexError exactly for records shorter than 3; otherwise true exactly when claimed and computed checksums agree (corrected form) |
| ChecksumEngine.VerifyChecksumAsWritten | device.py:122-137 | as written: raises exactly when the record is shorter than 3 or the computed sum is below 16 (`hex(s)[3]`); otherwise agrees with the corrected form |
| ChecksumEngine.VerifyMeansRendering | device.py:124-131 | verification succeeds exactly when both claimed characters match the rendering in their low nibble, and, for characters in `'0'..'?'`, exactly when they are the rendering |
| ChecksumEngine.BareQueryCrashesVerification | device.py:128 | on `05 31 0d` verification as written raises, while the comparison alone would answer false |
| ChecksumEngine.DataFrameCounted | device.py:106-108 | in a 10-character data record with its ETX at index 6, the sum covers indices 1..5 |
| Temperature.Digit | device.py:82 | a digit value is rendered as a decimal digit character of that value |
| Temperature.DigitsValue | device.py:155 | one digit denotes less than 10, two less than 100 |
| Temperature.DecimalString | device.py:82 | the decimal rendering of `n` is digits denoting `n`, one of them exactly below 10, at most two exactly below 100 |
| Temperature.FormatTemperature | device.py:82-83 | `%05.2f` has a point third from the end and is longer than 5 characters exactly from 100.00 on |
| Temperature.FormatShape | device.py:82 | below 100.00 the rendering is the five characters "DD.DD" of the value's digits |
| Temperature.FractionValue | device.py:155 | the fractional digits denote less than one degree |
| Temperature.StripLeading | device.py:155 | the whitespace `float()` strips in front: the result is a suffix, everything dropped is whitespace, and it does not start with whitespace |
| Temperature.StripTrailing | device.py:155 | the same for trailing whitespace |
| Temperature.WholeDigits | device.py:155 | the integer part after stripping and an optional '+'; a string of digits is unchanged |
| Temperature.FractionDigits | device.py:155 | the fraction after stripping; a string of digits is unchanged |
| Temperature.ParseTemperature | device.py:155 | `float(whole + '.' + frac)` succeeds exactly when the stripped sides are digits with at least one digit in all, else ValueError; any value is below 100.00 |
| Temperature.ParseDigits | device.py:155 | digit-only sides parse to their value, failing only when both are empty |
| Temperature.ParseFormatRoundTrip | device.py:82-87 | the payload digits of the rendering of `t`, split two and two, parse back to `t` |
| Temperature.FormatParseRoundTrip | device.py:155 | four payload digits parsed as a setpoint render again as the same digits around a point |
| Wire.Slice | device.py:155 | Python's `r[i:j]` with `i <= j`: the characters from `i` up to `j`, both clamped to the length |
| Device.AckFrame | device.py:75-76 | the acknowledgement is ACK followed by CR |
| Device.PayloadDigits | device.py:87 | the payload is four digits that are the `%05.2f` rendering without its point |
| Device.ReplyBody | device.py:80-88 | the buffer checksummed by the encoder is STX, `'1'`, the payload digits and ETX |
| Device.ReplyBodyCounted | device.py:89 | the encoder's checksum covers only indices 1..3 of that buffer |
| Device.ReplyFrame | device.py:79-92 | a data reply is 10 characters: STX, `'1'`, the payload, ETX, the rendering of the sum of indices 1..3, and CR |
| Device.ReturnTemperature | device.py:79-93 | raises "temperature range" exactly from 100.00 on, and otherwise builds the data reply |
| Device.ReplyFailsVerification | device.py:89-91 | every data reply fails the device's own checksum verification |
| Device.PacketType | device.py:113-114 | the control byte is the code of the record's first character |
| Device.EnqCommand | device.py:116-117 | the command byte is the code of the record's second character |
| Device.TemperatureReply | device.py:79-93 | the reply to a query raises "temperature range" exactly from 100.00 on, and otherwise is a 10-character frame carrying the payload digits |
| Device.ParseSetpoint | device.py:155 | reading `r[2:4] + '.' + r[4:6]` fails only with ValueError, stays below 100.00, and succeeds whenever `r[2..6]` are four digits |
| Device.SetpointDigits | device.py:155 | four payload digits are read as a setpoint whose `%05.2f` rendering is those digits around a point |
| Device.Dispatch | device.py:154-161 | the branch on the control byte never raises IndexError and raises only with the stored temperature unchanged |
| Device.Respond | device.py:149-161 | a pass that raises leaves the stored temperature unchanged (corrected verification) |
| Device.RespondAsWritten | device.py:149-161 | the pass as written: a pass that raises leaves the stored temperature unchanged |
| Device.RespondAsWrittenAgrees | device.py:128 | the pass as written raises IndexError on every record of at least 3 characters whose computed sum is below 16, and agrees with the corrected pass exactly on the other records |
| Device.SetpointRecordChecksum | device.py:103-111 | a 10-character data record's sum is 0x31 + 4 * 0x30 plus its digit values, modulo 256, and is below 16 exactly when the digits add up to 15..30 |
| Device.SetpointRecordAsWritten | device.py:151-156 | a setpoint record with four digits is acknowledged by the corrected pass; as written it raises IndexError exactly when its digits add up to 15..30, and otherwise the two passes agree |
| Device.ReplyIsSetpointAsWritten | device.py:151-156 | the device's own data reply fed back to the code as written is acknowledged and stored exactly when its digits do not add up to 15..30 |
| Device.DispatchTable | device.py:151-161 | a short record raises; a data record with four payload digits is acknowledged and stores their value; query '1' reports the stored value; query '2' reports 42.43; any other query or control byte gets no reply; queries keep the temperature |
| Device.RespondKeepsRange | device.py:154-161 | a pass never raises "temperature range", keeps the setpoint below 100.00, and only a data record changes it |
| Device.ChecksumIgnored | device.py:151 | for records of at least 9 characters, and any record of at least 5 that does not open with STX, overwriting the two checksum characters never changes what a pass does |
| Device.ReplyIsSetpoint | device.py:154-156 | a data reply fed back to the device is acknowledged and stores the temperature it reported |
| Device.ShortDataRecord | device.py:155 | `STX '1' '3' '1' CR` stores 31.00, since `float()` strips the CR |
| Device.StrayPayloadCharacter | device.py:155 | a data record whose fourth character is an ASCII character other than a digit, whitespace, '+' or '-' raises ValueError |
| Device.Run | device.py:147-161 | a run gives at most one outcome per record, and only its last outcome can be an exception, which it must be when it stops early |
| Device.RunStep | device.py:147-161 | a pass that does not raise is followed by the run over the remaining records from the temperature it leaves |
| Device.RunFrom | device.py:147-161 | the run from record `k` on is that record's outcome alone when the pass raises, and otherwise that outcome followed by the run over the rest |
| Device.RunWithoutFault | device.py:147-161 | a run in which no pass raises is the sequence of its passes' outcomes and ends at the last pass's temperature |
| Device.EmulatedDevice.constructor | device.py:24-26 | a fresh device stores 13.00 |
| Device.EmulatedDevice.SetTemperature | device.py:119-120 | stores the given temperature |
| Device.EmulatedDevice.ReturnSetTemperature | device.py:96-97 | replies with the stored temperature, raising "temperature range" from 100.00 on |
| Device.EmulatedDevice.ReturnInternalSensorTemperature | device.py:100-101 | replies with 42.43 |
| Device.EmulatedDevice.Step | device.py:149-161 | one pass of the loop produces the outcome and the new setpoint `Respond` gives, raising "temperature range" on a query when the stored value is 100.00 or more, and keeps a setpoint below 100.00 below it |
| Device.EmulatedDevice.Serve | device.py:147-161 | the loop over a finite sequence of records produces the outcomes and final setpoint of `Run`, and keeps a setpoint below 100.00 below it |
| Client.DecodeTemp | client.py:28-32 | raises IndexError exactly on an empty line or a lone STX; any line not opening with STX, or with a command other than '1' and '2', is an unknown response |
| Client.DecodeTempAccepted | client.py:30 | an accepted line of at least 6 characters decodes to 13 characters with '.' at index 2, its characters 2..5 around it, and " degrees"; nothing past index 5 matters |
| Client.DecodeReply | client.py:30 | every data reply decodes to the `%05.2f` rendering of its temperature followed by " degrees" |
| Client.DecodeAck | client.py:28-32 | the acknowledgement decodes as an unknown response |
| Client.SetpointVectorVerifies | client.py:41 | the setpoint record's "?4" is the rendering of 0xF4, the sum of '1','3','0','0','0', so it verifies |
| Client.QueryCounted | client.py:35 | in a five-character query only the command byte is counted |
| Client.QueryVectorsVerify | client.py:53 | both well-formed queries carry the rendering of their checksum and verify |
| Client.BadChecksumStillAnswered | client.py:60 | the device computes 0x32 against a claimed 0x31, verification fails, and the query is answered with 42.43 all the same |
| Client.InitialReading | client.py:34-38 | the first reading prints "13.00 degrees" |
| Client.SetpointReading | client.py:45-49 | the reading after the setpoint prints "30.00 degrees" |
| Client.InternalSensorReading | client.py:52-56 | the internal sensor prints "42.43 degrees" |
| Client.SetpointStored | client.py:41 | the setpoint record is acknowledged and stores 30.00 |
| Client.ScriptPasses | client.py:34-63 | what each record of the script does to a device at the setpoint it meets |
| Client.ScriptRun | client.py:34-63 | the script on a fresh device yields the 13.00 reply, the acknowledgement, the 30.00 reply, two 42.43 replies, and leaves 30.00 stored |
| Client.ScriptClearOfDiagnosticFault | client.py:34-63 | no record of the script has a computed sum below 16, so verification as written never raises on them |
| Client.RunScriptOnFreshDevice | client.py:34-63 | a newly constructed device object serving the script produces exactly those outcomes and ends at 30.00 |

## Left out

- Transport: the socat pseudo-terminal pair, the serial port, the text wrapper and `write`/`read` (device.py:28-73, client.py:21-26) are not modelled. A pass takes the record read and returns what would be written.
- The output of `print` and the one-second pause between passes are left out. The diagnostic at device.py:128 is the exception: its `hex(s)[3]` raises, and that is modelled (see Findings). Printing a record that holds a non-ASCII character (device.py:71, device.py:150) can also raise UnicodeEncodeError, depending on the console's encoding; that is not modelled.
- `__del__` and `stop`, which kill the socat process, are left out: process plumbing.
- The endless `while(1)` loop is modelled as a run over a finite sequence of records (`Run`, `EmulatedDevice.Serve`).
- The controller's blocking write/readline sequence is left out. Only its records' contents and the decoding of the replies are modelled.
- Temperatures are integer hundredths, not binary floats. Rounding in `%05.2f` and `float()` is outside the model. Every value the device stores or reports has two decimals.
- Negative temperatures are not modelled. The source marks them as unhandled (device.py:78).
- Temperature.ParseTemperature: treats as ValueError several spellings that Python's `float()` accepts:
  - a '-' sign. The code stores such a setpoint. Above -10 it is also reported, with '-' in the payload: -5.00 renders as "-5.00", giving the payload "-500". From -10 on, the next report raises "temperature range".
  - an exponent in place of the two fraction digits, as in `01.e0` or `05.e1`. The code stores the whole part times 10 to the power of that one digit: 1.00 and 50.00 for these two. Only a product of 100.00 or more makes the next report raise. (No spelling of `inf` or `nan` can reach `float()` here, since its argument always holds a '.'.)
  - non-ASCII digits and non-ASCII whitespace.
  The model therefore never stores a negative or out-of-range setpoint.
- Device.Respond: uses the corrected verification. The code as written raises where they reply: on every record of three or four characters, on every setpoint record whose digits add up to 15..30 (39.30 is one), and on the device's own reply of such a value fed back to it. Device.RespondAsWritten, Device.RespondAsWrittenAgrees, Device.SetpointRecordAsWritten and Device.ReplyIsSetpointAsWritten state that behaviour exactly.
- Device.DispatchTable: holds for the corrected verification. As written, its data-record and query clauses fail wherever the computed sum is below 16, such as the bare query `05 31 0d` and the setpoint 39.30, which raise IndexError.
- Device.ReplyIsSetpoint: holds for the corrected verification. As written, a reply whose digits add up to 15..30 raises IndexError when fed back (Device.ReplyIsSetpointAsWritten).
- Device.Run: runs the corrected pass, so it does not stop where the code as written raises for a computed sum below 16.
- Device.EmulatedDevice.Step: uses the corrected verification (see Findings), so it does not reproduce the exception that the diagnostic line raises for computed sums below 16.
- Device.EmulatedDevice.Serve: serves with the corrected pass, as Device.Run does, so it does not stop where the diagnostic line raises.
- Device.ParseSetpoint: its bound below 100.00 holds only because the model reads exponent spellings as ValueError. On `02 31 39 39 65 35 03 30 30 0d` (computed sum 0x13d, 61 modulo 256, so even the verification as written passes) the code stores `float("99.e5")`, 9 900 000.0, where the model raises ValueError.
- Device.RespondKeepsRange: "never raises temperature range" and "keeps the setpoint below 100.00" hold only under the same parse limits. After the record `02 31 39 39 65 35 03 30 30 0d` the code's next query `05 31 33 31 0d` raises "temperature range".
- Device.EmulatedDevice.Step: keeps a setpoint below 100.00 only under the same parse limits; the code would store 9 900 000.0 from `02 31 39 39 65 35 03 30 30 0d`.
- Device.EmulatedDevice.Serve: keeps a setpoint below 100.00 only under the same parse limits, for the same record.

## Findings

| source | as written | input that shows it | evidently intended | confidence | as-written member | corrected member |
|---|---|---|---|---|---|---|
| device.py:128 | the diagnostic `hex(s)[3]` indexes past the end of `hex(s)` whenever the computed sum is below 16. The handler at device.py:135-137 re-raises the IndexError, so the device's main loop ends | the bare query `05 31 0d`, whose sum is 0; every record of three or four characters; every setpoint record whose digits add up to 15..30, such as 39.30, `02 31 33 39 33 30 03 30 30 0d` (sum 0x100, so 0 modulo 256); the device's own reply for 39.30 fed back to it | log both nibbles of the sum and return the comparison, whatever the sum | high, not executed | ChecksumEngine.VerifyChecksumAsWritten (shown by ChecksumEngine.BareQueryCrashesVerification and Device.SetpointRecordAsWritten) | ChecksumEngine.VerifyChecksum |

=== FILE: checksum.dfy ===
/**
 * The checksum engine of the device emulator: the byte-wise sum over the
 * counted range of a record, its two-character rendering (each nibble plus
 * '0', so nibble 10 is ':'), and the verification of a received record,
 * whose claimed checksum sits just before the CR terminator.
 */
module ChecksumEngine {
  import opened Wire

  /**
   * Where the summing loop of computeChecksum stops when it is at index `i`:
   * the first index from `i` on that is an ETX or lies past `|p| - 4`
   * (or past the end of the record).
   */
  function ScanEnd(p: string, i: nat): (e: nat)
    ensures i <= e
    ensures e == i || e <= |p| - 3
    ensures forall j :: i <= j < e ==> j + 4 <= |p| && p[j] as int != ETX
    ensures e + 4 <= |p| ==> p[e] as int == ETX
    decreases |p| - i
  {
    if i >= |p| || p[i] as int == ETX || i > |p| - 4 then i else ScanEnd(p, i + 1)
  }

  /** The index at which computeChecksum stops; summing starts at index 1. */
  function ChecksumEnd(p: string): nat
  {
    ScanEnd(p, 1)
  }

  /** The characters computeChecksum adds up. */
  function Counted(p: string): (c: string)
    ensures |p| >= 1 ==> c == p[1..ChecksumEnd(p)]
    ensures forall k :: 0 <= k < |c| ==> c[k] as int != ETX
  {
    if |p| <= 1 then [] else p[1..ChecksumEnd(p)]
  }

  /** The plain sum of the character codes of `s`. */
  function ByteSum(s: string): nat
  {
    if |s| == 0 then 0 else ByteSum(s[..|s| - 1]) + s[|s| - 1] as int
  }

  lemma {:induction false} ByteSumAppend(a: string, b: string)
    ensures ByteSum(a + b) == ByteSum(a) + ByteSum(b)
    decreases |b|
  {
    if |b| == 0 {
      assert a + b == a;
    } else {
      assert (a + b)[..|a + b| - 1] == a + b[..|b| - 1];
      ByteSumAppend(a, b[..|b| - 1]);
    }
  }

  /** The value computeChecksum returns: the counted characters summed modulo 256. */
  function Checksum(p: string): (s: nat)
    ensures s < 256
  {
    ByteSum(Counted(p)) % 256
  }

  /**
   * computeChecksum: a loop from index 1 that adds each character to an
   * 8-bit accumulator (`& 0xff` after every addition) and breaks at an ETX
   * or once the index passes `len - 4`.
   */
  method ComputeChecksum(p: string) returns (s: nat)
    ensures s < 256
    ensures s == Checksum(p)
  {
    s := 0;
    var i := 1;
    while i < |p|
      invariant 1 <= i
      invariant i <= |p| || (|p| == 0 && s == 0)
      invariant ScanEnd(p, i) == ChecksumEnd(p)
      invariant i <= |p| ==> s == ByteSum(p[1..i]) % 256
    {
      if p[i] as int == ETX || i > |p| - 4 {
        break;
      }
      assert ByteSum(p[1..i + 1]) == ByteSum(p[1..i]) + p[i] as int by {
        assert p[1..i + 1] == p[1..i] + [p[i]];
        ByteSumAppend(p[1..i], [p[i]]);
        assert [p[i]][..0] == [];
      }
      AddModulo(ByteSum(p[1..i]), p[i] as int);
      s := (s + p[i] as int) % 256;
      i := i + 1;
    }
  }

  /** The sum of five characters, one addition at a time. */
  lemma ByteSumOfFive(a: char, b: char, c: char, d: char, e: char)
    ensures ByteSum([a, b, c, d, e]) == a as int + b as int + c as int + d as int + e as int
  {
    assert [a][..0] == [];
    assert ByteSum([a]) == a as int;
    assert [a, b][..1] == [a];
    assert ByteSum([a, b]) == a as int + b as int;
    assert [a, b, c][..2] == [a, b];
    assert ByteSum([a, b, c]) == a as int + b as int + c as int;
    assert [a, b, c, d][..3] == [a, b, c];
    assert ByteSum([a, b, c, d]) == a as int + b as int + c as int + d as int;
    assert [a, b, c, d, e][..4] == [a, b, c, d];
  }

  /** Reducing the accumulator after every addition gives the reduced total. */
  lemma AddModulo(a: nat, x: nat)
    ensures (a % 256 + x) % 256 == (a + x) % 256
  {
    assert a == a / 256 * 256 + a % 256;
  }

  /** The rendering of one nibble: the nibble plus 0x30 ('0'). */
  function NibbleChar(n: nat): (c: char)
    requires n < 16
    ensures '0' <= c <= '?'
  {
    (0x30 + n) as char
  }

  /** The `& 0x0f` decoding the device applies to a received checksum character. */
  function LowNibble(c: char): (n: nat)
    ensures n < 16
  {
    c as int % 16
  }

  /** The checksum a record claims: `((p[-3] & 0x0f) << 4) + (p[-2] & 0x0f)`. */
  function ClaimedChecksum(p: string): (s: nat)
    requires |p| >= 3
    ensures s < 256
  {
    LowNibble(p[|p| - 3]) * 16 + LowNibble(p[|p| - 2])
  }

  /**
   * The two checksum characters written into a reply: the high nibble, then
   * the low nibble, each plus '0'. Decoding them as a received record's
   * checksum gives the sum back.
   */
  function RenderChecksum(s: nat): (c: string)
    requires s < 256
    ensures |c| == 2
    ensures '0' <= c[0] <= '?' && '0' <= c[1] <= '?'
    ensures LowNibble(c[0]) * 16 + LowNibble(c[1]) == s
  {
    [NibbleChar((s / 16) % 16), NibbleChar(s % 16)]
  }

  /** The rendering is the only way to spell a sum with characters in '0'..'?'. */
  lemma RenderChecksumUnique(hi: char, lo: char)
    requires '0' <= hi <= '?' && '0' <= lo <= '?'
    ensures RenderChecksum(LowNibble(hi) * 16 + LowNibble(lo)) == [hi, lo]
  {
    var s := LowNibble(hi) * 16 + LowNibble(lo);
    assert s / 16 == LowNibble(hi) && s % 16 == LowNibble(lo);
  }

  /**
   * verify_checksum with the comparison the code makes: a record shorter
   * than three characters raises on `p[-3]`; otherwise the claimed and the
   * computed checksum are compared. The device ignores the answer.
   */
  function VerifyChecksum(p: string): (r: Result<bool>)
    ensures r.Failure? <==> |p| < 3
    ensures r.Failure? ==> r.error == IndexOutOfRange
    ensures |p| >= 3 ==> (r.value <==> ClaimedChecksum(p) == Checksum(p))
  {
    if |p| < 3 then Failure(IndexOutOfRange) else Success(ClaimedChecksum(p) == Checksum(p))
  }

  /**
   * verify_checksum as written, including its diagnostic line: `hex(s)[3]`
   * indexes past the end of `hex(s)` whenever the computed sum is below 16,
   * and the handler re-raises that IndexError.
   */
  function VerifyChecksumAsWritten(p: string): (r: Result<bool>)
    ensures r.Failure? <==> |p| < 3 || Checksum(p) < 16
    ensures r.Failure? ==> r.error == IndexOutOfRange
    ensures r.Success? ==> r == VerifyChecksum(p)
  {
    if |p| < 3 then Failure(IndexOutOfRange)
    else if Checksum(p) < 16 then Failure(IndexOutOfRange)
    else Success(ClaimedChecksum(p) == Checksum(p))
  }

  /**
   * A record verifies exactly when its two checksum characters agree with the
   * rendering of the computed sum in their low nibbles; when both lie in
   * '0'..'?' (the alphabet the rendering uses) that means they ARE the rendering.
   */
  lemma VerifyMeansRendering(p: string)
    requires |p| >= 3
    ensures VerifyChecksum(p).value <==>
              LowNibble(p[|p| - 3]) == LowNibble(RenderChecksum(Checksum(p))[0]) &&
              LowNibble(p[|p| - 2]) == LowNibble(RenderChecksum(Checksum(p))[1])
    ensures '0' <= p[|p| - 3] <= '?' && '0' <= p[|p| - 2] <= '?' ==>
              (VerifyChecksum(p).value <==> p[|p| - 3..|p| - 1] == RenderChecksum(Checksum(p)))
  {
    var s := Checksum(p);
    var c := RenderChecksum(s);
    var h, l := LowNibble(p[|p| - 3]), LowNibble(p[|p| - 2]);
    assert LowNibble(c[0]) == s / 16 && LowNibble(c[1]) == s % 16;
    assert h * 16 + l == s <==> h == s / 16 && l == s % 16;
    if '0' <= p[|p| - 3] <= '?' && '0' <= p[|p| - 2] <= '?' {
      if h * 16 + l == s {
        RenderChecksumUnique(p[|p| - 3], p[|p| - 2]);
        assert p[|p| - 3..|p| - 1] == [p[|p| - 3], p[|p| - 2]];
      }
    }
  }

  /**
   * The query form `ENQ '1' CR` (no checksum characters) counts no
   * character, so its computed sum is 0: verify_checksum as written raises
   * on it, while the comparison itself would simply answer false.
   */
  lemma BareQueryCrashesVerification()
    ensures var q := [ENQ as char, SET_TEMPERATURE as char, CR as char];
            VerifyChecksumAsWritten(q) == Failure(IndexOutOfRange) &&
            VerifyChecksum(q) == Success(false)
  {
    var q := [ENQ as char, SET_TEMPERATURE as char, CR as char];
    assert ChecksumEnd(q) == 1;
    assert Counted(q) == [];
  }

  /**
   * In a record of data-frame length (10 characters with its CR) whose ETX is
   * at index 6, the sum covers exactly the command byte and the four payload
   * characters: the ETX is reached before the `len - 4` cut.
   */
  lemma DataFrameCounted(f: string)
    requires |f| == 10 && f[6] as int == ETX
    requires forall k :: 1 <= k < 6 ==> f[k] as int != ETX
    ensures Counted(f) == f[1..6]
  {
    assert ChecksumEnd(f) == 6;
  }
}

=== FILE: client.dfy ===
/**
 * The controller script: its decoder for the device's data replies, and the
 * literal records it sends, which serve here as test vectors for the
 * checksum engine and the device's main loop.
 */
module Client {
  import opened Wire
  import opened ChecksumEngine
  import opened Temperature
  import opened Device

  const UNKNOWN_RESPONSE: string := "<unknown response>"
  const DEGREES: string := " degrees"

  /**
   * decode_temp: a data record for SET_TEMPERATURE or READ_INTERNAL_SENSOR
   * becomes "DD.DD degrees" from its payload characters; any other record is
   * an unknown response. The `and` looks at the command byte only after the
   * STX matched, so an empty line, or a lone STX, raises IndexError.
   */
  function DecodeTemp(line: string): (r: Result<string>)
    ensures r.Failure? <==> |line| == 0 || (|line| == 1 && line[0] as int == STX)
    ensures r.Failure? ==> r.error == IndexOutOfRange
    ensures |line| >= 1 && line[0] as int != STX ==> r == Success(UNKNOWN_RESPONSE)
    ensures |line| >= 2 && line[0] as int == STX && line[1] as int !in {SET_TEMPERATURE, READ_INTERNAL_SENSOR} ==>
              r == Success(UNKNOWN_RESPONSE)
  {
    if |line| == 0 then Failure(IndexOutOfRange)
    else if line[0] as int != STX then Success(UNKNOWN_RESPONSE)
    else if |line| == 1 then Failure(IndexOutOfRange)
    else if line[1] as int in {SET_TEMPERATURE, READ_INTERNAL_SENSOR} then
      Success(Slice(line, 2, 4) + "." + Slice(line, 4, 6) + DEGREES)
    else Success(UNKNOWN_RESPONSE)
  }

  /**
   * An accepted line of at least six characters decodes to thirteen
   * characters: its payload characters 2..3, a point at index 2, its payload
   * characters 4..5, then " degrees". Nothing after index 5 (the ETX, the
   * checksum, the CR) has any influence.
   */
  lemma DecodeTempAccepted(line: string)
    requires |line| >= 6 && line[0] as int == STX
    requires line[1] as int == SET_TEMPERATURE || line[1] as int == READ_INTERNAL_SENSOR
    ensures DecodeTemp(line).Success?
    ensures var v := DecodeTemp(line).value;
            |v| == 13 && v[2] == '.' && v[..2] == line[2..4] && v[3..5] == line[4..6] && v[5..] == DEGREES
    ensures DecodeTemp(line) == DecodeTemp(line[..6])
  {
    var v := DecodeTemp(line).value;
    assert v == line[2..4] + "." + line[4..6] + DEGREES;
    assert line[..6][2..4] == line[2..4] && line[..6][4..6] == line[4..6];
  }

  /** The controller reads every data reply as the `%05.2f` rendering of the reported temperature. */
  lemma DecodeReply(t: nat)
    requires t < 10000
    ensures DecodeTemp(ReplyFrame(t)) == Success(FormatTemperature(t) + DEGREES)
  {
    var f := ReplyFrame(t);
    var d := PayloadDigits(t);
    assert f[2..4] == [d[0], d[1]] && f[4..6] == [d[2], d[3]];
    assert f[2..4] + "." + f[4..6] == [d[0], d[1], '.', d[2], d[3]];
  }

  /** The acknowledgement is not a temperature reading. */
  lemma DecodeAck()
    ensures DecodeTemp(AckFrame()) == Success(UNKNOWN_RESPONSE)
  {
  }

  // The records the script writes, in order.

  /** Read the setpoint: ENQ, SET_TEMPERATURE, checksum "31", CR. */
  const READ_SETPOINT_QUERY: string := [ENQ as char, '1', '3', '1', CR as char]

  /** Set 30.00 degrees: STX, '1', "3000", ETX, checksum "?4", CR. */
  const SETPOINT_30: string := [STX as char, '1', '3', '0', '0', '0', ETX as char, '?', '4', CR as char]

  /** Read the internal sensor: ENQ, READ_INTERNAL_SENSOR, checksum "32", CR. */
  const READ_INTERNAL_QUERY: string := [ENQ as char, '2', '3', '2', CR as char]

  /** Read the internal sensor with a deliberately wrong checksum "31". */
  const READ_INTERNAL_BAD_CHECKSUM: string := [ENQ as char, '2', '3', '1', CR as char]

  const SCRIPT: seq<string> :=
    [READ_SETPOINT_QUERY, SETPOINT_30, READ_SETPOINT_QUERY, READ_INTERNAL_QUERY, READ_INTERNAL_BAD_CHECKSUM]

  /** The setpoint's "?4" is the rendering of 0xF4, the sum of '1', '3', '0', '0', '0'. */
  lemma SetpointVectorVerifies()
    ensures Checksum(SETPOINT_30) == 0xF4
    ensures SETPOINT_30[7..9] == RenderChecksum(0xF4)
    ensures VerifyChecksum(SETPOINT_30) == Success(true)
  {
    var f := SETPOINT_30;
    DataFrameCounted(f);
    assert f[1..6] == ['1', '3', '0', '0', '0'];
    ByteSumOfFive('1', '3', '0', '0', '0');
  }

  /** In a five-character query only the command byte is counted. */
  lemma QueryCounted(q: string)
    requires |q| == 5 && q[1] as int != ETX
    ensures Checksum(q) == q[1] as int % 256
  {
    assert ChecksumEnd(q) == 2;
    assert Counted(q) == [q[1]] && [q[1]][..0] == [];
    assert ByteSum([q[1]]) == q[1] as int;
  }

  /** Both well-formed queries carry the rendering of their one counted byte. */
  lemma QueryVectorsVerify()
    ensures Checksum(READ_SETPOINT_QUERY) == 0x31 && VerifyChecksum(READ_SETPOINT_QUERY) == Success(true)
    ensures Checksum(READ_INTERNAL_QUERY) == 0x32 && VerifyChecksum(READ_INTERNAL_QUERY) == Success(true)
  {
    QueryCounted(READ_SETPOINT_QUERY);
    QueryCounted(READ_INTERNAL_QUERY);
  }

  /**
   * The query with the wrong checksum: the device computes 0x32, the record
   * claims 0x31, verification fails, and the reply is produced all the same.
   */
  lemma BadChecksumStillAnswered(t: nat)
    ensures Checksum(READ_INTERNAL_BAD_CHECKSUM) == 0x32
    ensures ClaimedChecksum(READ_INTERNAL_BAD_CHECKSUM) == 0x31
    ensures VerifyChecksum(READ_INTERNAL_BAD_CHECKSUM) == Success(false)
    ensures Respond(t, READ_INTERNAL_BAD_CHECKSUM) == Transition(Reply(ReplyFrame(INTERNAL_SENSOR_READING)), t)
  {
    QueryCounted(READ_INTERNAL_BAD_CHECKSUM);
  }

  /** The first reading the script prints: the initial setpoint. */
  lemma InitialReading()
    ensures DecodeTemp(ReplyFrame(INITIAL_TEMPERATURE)) == Success("13.00 degrees")
  {
    Reading(1300, "13.00 degrees");
  }

  /** The reading after the setpoint record. */
  lemma SetpointReading()
    ensures DecodeTemp(ReplyFrame(3000)) == Success("30.00 degrees")
  {
    Reading(3000, "30.00 degrees");
  }

  /** The reading of the internal sensor. */
  lemma InternalSensorReading()
    ensures DecodeTemp(ReplyFrame(INTERNAL_SENSOR_READING)) == Success("42.43 degrees")
  {
    Reading(4243, "42.43 degrees");
  }

  lemma Reading(t: nat, text: string)
    requires t < 10000 && |text| == 13 && text[5..] == DEGREES
    requires text[0] == Digit(t / 1000) && text[1] == Digit(t / 100 % 10) && text[2] == '.'
    requires text[3] == Digit(t / 10 % 10) && text[4] == Digit(t % 10)
    ensures DecodeTemp(ReplyFrame(t)) == Success(text)
  {
    DecodeReply(t);
    FormatShape(t);
    assert FormatTemperature(t) == text[..5];
    assert text == text[..5] + text[5..];
  }

  /**
   * What each record of the script does to the device: the setpoint query
   * reports the stored value, the setpoint record stores 30.00 and is
   * acknowledged, and both sensor queries report 42.43.
   */
  lemma ScriptPasses()
    ensures Respond(1300, READ_SETPOINT_QUERY) == Transition(Reply(ReplyFrame(1300)), 1300)
    ensures Respond(1300, SETPOINT_30) == Transition(Reply(AckFrame()), 3000)
    ensures Respond(3000, READ_SETPOINT_QUERY) == Transition(Reply(ReplyFrame(3000)), 3000)
    ensures Respond(3000, READ_INTERNAL_QUERY) == Transition(Reply(ReplyFrame(INTERNAL_SENSOR_READING)), 3000)
    ensures Respond(3000, READ_INTERNAL_BAD_CHECKSUM) == Transition(Reply(ReplyFrame(INTERNAL_SENSOR_READING)), 3000)
  {
    DispatchTable(1300, READ_SETPOINT_QUERY);
    SetpointStored(1300);
    DispatchTable(3000, READ_SETPOINT_QUERY);
    DispatchTable(3000, READ_INTERNAL_QUERY);
    BadChecksumStillAnswered(3000);
  }

  /**
   * The whole script against a fresh device: 13.00 reported, the setpoint
   * acknowledged, 30.00 reported, then 42.43 twice, the second time despite
   * the wrong checksum; the device is left at 30.00.
   */
  lemma ScriptRun()
    ensures Run(INITIAL_TEMPERATURE, SCRIPT) ==
            Trace([Reply(ReplyFrame(1300)), Reply(AckFrame()), Reply(ReplyFrame(3000)),
                   Reply(ReplyFrame(INTERNAL_SENSOR_READING)), Reply(ReplyFrame(INTERNAL_SENSOR_READING))],
                  3000)
  {
    ScriptPasses();
    ScriptShape(1300, 3000, READ_SETPOINT_QUERY, SETPOINT_30, READ_INTERNAL_QUERY, READ_INTERNAL_BAD_CHECKSUM,
                Reply(ReplyFrame(1300)), Reply(AckFrame()), Reply(ReplyFrame(3000)),
                Reply(ReplyFrame(INTERNAL_SENSOR_READING)), Reply(ReplyFrame(INTERNAL_SENSOR_READING)));
  }

  /**
   * The run of a script shaped like the controller's: query, setpoint,
   * query, sensor query, sensor query, given what each of those passes does.
   */
  lemma ScriptShape(t0: nat, t1: nat, q1: string, sp: string, q2: string, bad: string,
                    o0: Outcome, o1: Outcome, o2: Outcome, o3: Outcome, o4: Outcome)
    requires !o0.Crash? && !o1.Crash? && !o2.Crash? && !o3.Crash? && !o4.Crash?
    requires Respond(t0, q1) == Transition(o0, t0) && Respond(t0, sp) == Transition(o1, t1)
    requires Respond(t1, q1) == Transition(o2, t1) && Respond(t1, q2) == Transition(o3, t1)
    requires Respond(t1, bad) == Transition(o4, t1)
    ensures Run(t0, [q1, sp, q1, q2, bad]) == Trace([o0, o1, o2, o3, o4], t1)
  {
    RunStep(t1, bad, [], o4, t1);
    RunStep(t1, q2, [bad], o3, t1);
    RunStep(t1, q1, [q2, bad], o2, t1);
    RunStep(t0, sp, [q1, q2, bad], o1, t1);
    RunStep(t0, q1, [sp, q1, q2, bad], o0, t0);
    FiveInOrder(q1, sp, q1, q2, bad);
    FiveInOrder(o0, o1, o2, o3, o4);
  }

  /** Five elements, one prepended at a time. */
  lemma FiveInOrder<T>(a: T, b: T, c: T, d: T, e: T)
    ensures [e] + [] == [e] && [d] + [e] == [d, e] && [c] + [d, e] == [c, d, e]
    ensures [b] + [c, d, e] == [b, c, d, e] && [a] + [b, c, d, e] == [a, b, c, d, e]
    ensures [a] + ([b] + ([c] + ([d] + ([e] + [])))) == [a, b, c, d, e]
  {
  }

  /** The setpoint record stores 30.00 degrees and is acknowledged. */
  lemma SetpointStored(t: nat)
    ensures Respond(t, SETPOINT_30) == Transition(Reply(AckFrame()), 3000)
  {
    assert Slice(SETPOINT_30, 2, 4) == [Digit(3), Digit(0)];
    assert Slice(SETPOINT_30, 4, 6) == [Digit(0), Digit(0)];
    PairValue(3, 0);
    PairValue(0, 0);
  }

  /**
   * None of the script's records has a computed sum below 16, so the
   * diagnostic in verify_checksum as written never raises on them.
   */
  lemma ScriptClearOfDiagnosticFault()
    ensures forall r :: r in SCRIPT ==> VerifyChecksumAsWritten(r) == VerifyChecksum(r)
  {
    SetpointVectorVerifies();
    QueryVectorsVerify();
    BadChecksumStillAnswered(0);
  }

  /** The script run on a freshly constructed device object. */
  method RunScriptOnFreshDevice() returns (outcomes: seq<Outcome>, final: nat)
    ensures outcomes == [Reply(ReplyFrame(1300)), Reply(AckFrame()), Reply(ReplyFrame(3000)),
                         Reply(ReplyFrame(INTERNAL_SENSOR_READING)), Reply(ReplyFrame(INTERNAL_SENSOR_READING))]
    ensures final == 3000
  {
    var device := new EmulatedDevice();
    outcomes := device.Serve(SCRIPT);
    final := device.temperature;
    ScriptRun();
  }
}

=== FILE: device.dfy ===
/**
 * The device emulator: the frames it writes (data replies and the
 * acknowledgement), the one step of its main loop that turns an inbound
 * record into a reply, and the emulated device whose only state is the
 * stored setpoint temperature.
 *
 * An inbound record still ends in its CR terminator, as the text wrapper's
 * readline returns it. The transport itself is not part of this model: a
 * step takes the record read and returns what would be written.
 */
module Device {
  import opened Wire
  import opened ChecksumEngine
  import opened Temperature

  /** The setpoint of a freshly started device: 13 degrees. */
  const INITIAL_TEMPERATURE: nat := 1300

  /** The fixed reading of the simulated internal sensor: 42.43 degrees. */
  const INTERNAL_SENSOR_READING: nat := 4243

  /** The frame ack() writes. */
  function AckFrame(): (f: string)
    ensures |f| == 2 && f[0] as int == ACK && f[1] as int == CR
  {
    [ACK as char, CR as char]
  }

  /** packet_type: the control byte that opens a record. */
  function PacketType(p: string): (k: nat)
    requires |p| >= 1
    ensures (k < 0xD800 || 0xE000 <= k < 0x11_0000) && k as char == p[0]
  {
    p[0] as int
  }

  /** get_enq_command: the command byte that follows it. */
  function EnqCommand(p: string): (k: nat)
    requires |p| >= 2
    ensures (k < 0xD800 || 0xE000 <= k < 0x11_0000) && k as char == p[1]
  {
    p[1] as int
  }

  /**
   * `float(r[2:4] + '.' + r[4:6])`, the setpoint carried by a data record:
   * a failure is always ValueError, a value is below 100.00, and four
   * payload digits always give a value.
   */
  function ParseSetpoint(r: string): (p: Result<nat>)
    ensures p.Failure? ==> p.error == NotANumber
    ensures p.Success? ==> p.value < 10000
    ensures |r| >= 6 && AllDigits(r[2..6]) ==> p.Success?
  {
    SetpointDigits(r);
    ParseTemperature(Slice(r, 2, 4), Slice(r, 4, 6))
  }

  /**
   * Four payload digits give the setpoint whose `%05.2f` rendering is those
   * digits around a point.
   */
  lemma SetpointDigits(r: string)
    ensures |r| >= 6 && AllDigits(r[2..6]) ==>
              var p := ParseTemperature(Slice(r, 2, 4), Slice(r, 4, 6));
              p.Success? && FormatTemperature(p.value) == r[2..4] + "." + r[4..6]
  {
    if |r| >= 6 && AllDigits(r[2..6]) {
      var whole, frac := r[2..4], r[4..6];
      assert Slice(r, 2, 4) == whole && Slice(r, 4, 6) == frac;
      assert AllDigits(whole) && AllDigits(frac) by {
        assert forall k :: 0 <= k < 2 ==> whole[k] == r[2..6][k] && frac[k] == r[2..6][k + 2];
      }
      FormatParseRoundTrip(whole, frac);
    }
  }

  /** The four payload digits: `s[0:2] + s[3:5]` of the `%05.2f` rendering `s`. */
  function PayloadDigits(t: nat): (d: string)
    requires t < 10000
    ensures |d| == 4 && AllDigits(d)
    ensures [d[0], d[1], '.', d[2], d[3]] == FormatTemperature(t)
  {
    var s := FormatTemperature(t);
    FormatShape(t);
    [s[0], s[1], s[3], s[4]]
  }

  /** The part of a data reply that exists when return_temperature takes its checksum. */
  function ReplyBody(t: nat): (b: string)
    requires t < 10000
    ensures |b| == 7 && b[0] as int == STX && b[1] as int == SET_TEMPERATURE
    ensures b[2..6] == PayloadDigits(t) && b[6] as int == ETX
  {
    [STX as char, SET_TEMPERATURE as char] + PayloadDigits(t) + [ETX as char]
  }

  /**
   * Only the command byte and the first two payload digits of the reply
   * body are counted: the body is 7 characters, so the `len - 4` cut stops
   * the sum at index 4, before the ETX is reached.
   */
  lemma ReplyBodyCounted(t: nat)
    requires t < 10000
    ensures Counted(ReplyBody(t)) == ReplyBody(t)[1..4]
  {
    var b := ReplyBody(t);
    assert b[2] == b[2..6][0] && b[3] == b[2..6][1];
    assert ChecksumEnd(b) == 4;
  }

  /**
   * The data reply return_temperature writes for a temperature below 100.00:
   * STX, the command byte of SET_TEMPERATURE (whatever was asked), the four
   * digits of `%05.2f` without the point, ETX, two checksum characters, CR.
   * The checksum characters render the sum of the command byte and the first
   * two digits only.
   */
  function ReplyFrame(t: nat): (f: string)
    requires t < 10000
    ensures |f| == 10
    ensures f[0] as int == STX && f[1] as int == SET_TEMPERATURE
    ensures f[6] as int == ETX && f[9] as int == CR
    ensures f[2..6] == PayloadDigits(t)
    ensures f[7..9] == RenderChecksum(ByteSum(f[1..4]) % 256)
  {
    var b := ReplyBody(t);
    ReplyBodyCounted(t);
    var f := b + RenderChecksum(Checksum(b)) + [CR as char];
    assert f[..7] == b && f[7..9] == RenderChecksum(Checksum(b));
    assert f[1..4] == b[1..4];
    f
  }

  /**
   * return_temperature: builds the reply step by step, raising
   * "temperature range" when the `%05.2f` rendering is longer than five
   * characters, which is exactly from 100.00 degrees on.
   */
  method ReturnTemperature(t: nat) returns (res: Result<string>)
    ensures res.Failure? <==> t >= 10000
    ensures res.Failure? ==> res.error == TemperatureRange
    ensures res.Success? ==> res.value == ReplyFrame(t)
  {
    var r := [STX as char, SET_TEMPERATURE as char];
    var ts := FormatTemperature(t);
    if |ts| > 5 {
      return Failure(TemperatureRange);
    }
    r := r + ts[0..2] + ts[3..5];
    r := r + [ETX as char];
    assert r == ReplyBody(t);
    var s := ComputeChecksum(r);
    r := r + [NibbleChar((s / 16) % 16)];
    r := r + [NibbleChar(s % 16)];
    r := r + [CR as char];
    return Success(r);
  }

  /**
   * The device's data replies never pass its own verification: it counts
   * all four payload digits of a received 10-character frame, while the
   * reply's checksum covers only the first two.
   */
  lemma ReplyFailsVerification(t: nat)
    requires t < 10000
    ensures VerifyChecksum(ReplyFrame(t)) == Success(false)
  {
    var f := ReplyFrame(t);
    var d := PayloadDigits(t);
    assert forall k :: 1 <= k < 6 ==> f[k] as int != ETX by {
      assert forall k :: 2 <= k < 6 ==> f[k] == d[k - 2];
    }
    DataFrameCounted(f);
    var x := ByteSum(f[1..4]);
    assert ByteSum(f[1..6]) == x + f[4] as int + f[5] as int by {
      assert f[1..6] == f[1..4] + [f[4], f[5]];
      ByteSumAppend(f[1..4], [f[4], f[5]]);
      assert [f[4], f[5]][..1] == [f[4]] && [f[4]][..0] == [];
      assert ByteSum([f[4]]) == f[4] as int;
    }
    assert IsDigit(f[4]) && IsDigit(f[5]) by {
      assert f[4] == d[2] && f[5] == d[3];
    }
    assert ClaimedChecksum(f) == x % 256 by {
      assert f[7] == f[7..9][0] && f[8] == f[7..9][1];
    }
    Shifted(x, f[4] as int + f[5] as int);
  }

  lemma Shifted(x: nat, d: nat)
    requires 0 < d < 256
    ensures (x + d) % 256 != x % 256
  {
  }

  /** What one pass of the device's main loop does. */
  datatype Outcome =
    | Reply(frame: string)   // a record written back
    | NoReply                // nothing written; the loop reads the next record
    | Crash(fault: Fault)    // an exception ends the loop

  /** The outcome of a pass and the stored temperature after it. */
  datatype Transition = Transition(outcome: Outcome, temperature: nat)

  /** return_temperature(t) as an outcome of the loop. */
  function TemperatureReply(t: nat): (o: Outcome)
    ensures o.Crash? <==> t >= 10000
    ensures o.Crash? ==> o.fault == TemperatureRange
    ensures o.Reply? ==> |o.frame| == 10 && o.frame[2..6] == PayloadDigits(t)
  {
    if t < 10000 then Reply(ReplyFrame(t)) else Crash(TemperatureRange)
  }

  /**
   * The dispatch on the control byte that follows verification, for a
   * record of at least three characters. A data record stores its setpoint,
   * whatever its command byte, and is acknowledged; a query for
   * SET_TEMPERATURE is answered with the stored temperature, one for
   * READ_INTERNAL_SENSOR with the fixed reading; anything else is silent.
   * Its only exceptions are ValueError and "temperature range".
   */
  function Dispatch(t: nat, r: string): (x: Transition)
    requires |r| >= 3
    ensures x.outcome.Crash? ==> x.temperature == t && x.outcome.fault != IndexOutOfRange
  {
    if PacketType(r) == STX then
      match ParseSetpoint(r)
      case Success(v) => Transition(Reply(AckFrame()), v)
      case Failure(e) => Transition(Crash(e), t)
    else if PacketType(r) == ENQ then
      if EnqCommand(r) == SET_TEMPERATURE then Transition(TemperatureReply(t), t)
      else if EnqCommand(r) == READ_INTERNAL_SENSOR then Transition(TemperatureReply(INTERNAL_SENSOR_READING), t)
      else Transition(NoReply, t)
    else Transition(NoReply, t)
  }

  /**
   * One pass of the main loop with stored temperature `t` and inbound record
   * `r`, with the corrected verification: only a record too short to hold a
   * checksum makes a difference, by raising; the verdict itself is ignored.
   */
  function Respond(t: nat, r: string): (x: Transition)
    ensures x.outcome.Crash? ==> x.temperature == t
  {
    if VerifyChecksum(r).Failure? then Transition(Crash(VerifyChecksum(r).error), t)
    else Dispatch(t, r)
  }

  /**
   * One pass of the main loop as written: verification also raises, through
   * its diagnostic line, whenever the computed sum is below 16.
   */
  function RespondAsWritten(t: nat, r: string): (x: Transition)
    ensures x.outcome.Crash? ==> x.temperature == t
  {
    if VerifyChecksumAsWritten(r).Failure? then Transition(Crash(VerifyChecksumAsWritten(r).error), t)
    else Dispatch(t, r)
  }

  /**
   * The pass as written raises IndexError exactly where the corrected pass
   * does, and also on every record of three or more characters whose
   * computed sum is below 16; on all other records the two agree.
   */
  lemma RespondAsWrittenAgrees(t: nat, r: string)
    ensures |r| >= 3 && Checksum(r) < 16 ==> RespondAsWritten(t, r) == Transition(Crash(IndexOutOfRange), t)
    ensures RespondAsWritten(t, r) == Respond(t, r) <==> |r| < 3 || Checksum(r) >= 16
  {
    if |r| >= 3 {
      assert Respond(t, r) == Dispatch(t, r);
    }
  }

  /** The sum of the digit values of a four-character payload. */
  function DigitSum(d: string): int
    requires |d| == 4
  {
    (d[0] as int - 0x30) + (d[1] as int - 0x30) + (d[2] as int - 0x30) + (d[3] as int - 0x30)
  }

  /**
   * A well-formed setpoint record (STX, '1', four digits, ETX, two checksum
   * characters, CR) is acknowledged by the corrected pass; as written, it
   * raises exactly when its digits sum to 15..30, because the computed sum
   * 0x31 + 4 * 0x30 + digits then wraps to 0..15.
   */
  lemma SetpointRecordAsWritten(t: nat, r: string)
    requires t < 10000 && |r| == 10 && r[0] as int == STX && r[1] as int == SET_TEMPERATURE
    requires AllDigits(r[2..6]) && r[6] as int == ETX
    ensures Respond(t, r).outcome == Reply(AckFrame())
    ensures RespondAsWritten(t, r).outcome == Crash(IndexOutOfRange) <==> 15 <= DigitSum(r[2..6]) <= 30
    ensures !(15 <= DigitSum(r[2..6]) <= 30) ==> RespondAsWritten(t, r) == Respond(t, r)
  {
    var wraps := 15 <= DigitSum(r[2..6]) <= 30;
    assert Respond(t, r).outcome == Reply(AckFrame()) by {
      DispatchTable(t, r);
    }
    assert Checksum(r) < 16 <==> wraps by {
      SetpointRecordChecksum(r);
    }
    assert RespondAsWritten(t, r).outcome == Crash(IndexOutOfRange) <==> wraps by {
      RespondAsWrittenAgrees(t, r);
    }
    assert !wraps ==> RespondAsWritten(t, r) == Respond(t, r) by {
      RespondAsWrittenAgrees(t, r);
    }
  }

  /** The computed sum of a setpoint record: the command byte and the four digits. */
  lemma SetpointRecordChecksum(r: string)
    requires |r| == 10 && r[1] as int == SET_TEMPERATURE
    requires AllDigits(r[2..6]) && r[6] as int == ETX
    ensures Checksum(r) == (0x31 + 4 * 0x30 + DigitSum(r[2..6])) % 256
    ensures Checksum(r) < 16 <==> 15 <= DigitSum(r[2..6]) <= 30
  {
    assert forall k :: 2 <= k < 6 ==> IsDigit(r[k]) by {
      assert forall k :: 2 <= k < 6 ==> r[k] == r[2..6][k - 2];
    }
    DataFrameCounted(r);
    assert r[1..6] == [r[1], r[2], r[3], r[4], r[5]];
    ByteSumOfFive(r[1], r[2], r[3], r[4], r[5]);
    assert 0 <= DigitSum(r[2..6]) <= 36;
  }

  /**
   * A data reply fed back to the device as written is taken as a setpoint
   * only when its payload digits do not sum to 15..30: for 39.30, say, the
   * device raises instead.
   */
  lemma ReplyIsSetpointAsWritten(t: nat, u: nat)
    requires t < 10000 && u < 10000
    ensures RespondAsWritten(u, ReplyFrame(t)) == Transition(Reply(AckFrame()), t) <==>
              !(15 <= DigitSum(PayloadDigits(t)) <= 30)
  {
    var f := ReplyFrame(t);
    ReplyIsSetpoint(t, u);
    SetpointRecordAsWritten(u, f);
  }

  /**
   * The dispatch table. A record too short to carry a checksum raises. A data
   * record with four payload digits is acknowledged and stores the value
   * whose `%05.2f` rendering is those digits around a point. Queries leave
   * the temperature alone: '1' reports it, '2' reports 42.43 whatever it is,
   * and any other command or control byte gets no reply.
   */
  lemma DispatchTable(t: nat, r: string)
    requires t < 10000
    ensures |r| < 3 ==> Respond(t, r) == Transition(Crash(IndexOutOfRange), t)
    ensures |r| >= 6 && r[0] as int == STX && AllDigits(r[2..6]) ==>
              Respond(t, r).outcome == Reply(AckFrame()) &&
              FormatTemperature(Respond(t, r).temperature) == r[2..4] + "." + r[4..6]
    ensures |r| >= 3 && r[0] as int == ENQ && r[1] as int == SET_TEMPERATURE ==>
              Respond(t, r) == Transition(Reply(ReplyFrame(t)), t)
    ensures |r| >= 3 && r[0] as int == ENQ && r[1] as int == READ_INTERNAL_SENSOR ==>
              Respond(t, r) == Transition(Reply(ReplyFrame(INTERNAL_SENSOR_READING)), t)
    ensures |r| >= 3 && r[0] as int == ENQ && r[1] as int !in {SET_TEMPERATURE, READ_INTERNAL_SENSOR} ==>
              Respond(t, r) == Transition(NoReply, t)
    ensures |r| >= 3 && r[0] as int !in {STX, ENQ} ==> Respond(t, r) == Transition(NoReply, t)
  {
    SetpointDigits(r);
  }

  /**
   * A pass never raises "temperature range" and keeps the stored temperature
   * below 100.00 degrees, and only a data record changes it.
   */
  lemma RespondKeepsRange(t: nat, r: string)
    requires t < 10000
    ensures Respond(t, r).temperature < 10000
    ensures Respond(t, r).outcome != Crash(TemperatureRange)
    ensures Respond(t, r).temperature != t ==> |r| >= 3 && r[0] as int == STX
  {
  }

  /**
   * The claimed checksum never changes what the device does: overwriting the
   * two checksum characters of a record of at least 9 characters, or of at
   * least 5 that does not open with STX, leaves the transition unchanged,
   * although it may change what verification says.
   */
  lemma ChecksumIgnored(t: nat, r: string, hi: char, lo: char)
    requires |r| >= 9 || (|r| >= 5 && r[0] as int != STX)
    ensures Respond(t, r[|r| - 3 := hi][|r| - 2 := lo]) == Respond(t, r)
  {
    var r' := r[|r| - 3 := hi][|r| - 2 := lo];
    assert r'[0] == r[0] && r'[1] == r[1];
    if |r| >= 9 {
      assert Slice(r', 2, 4) == Slice(r, 2, 4);
      assert Slice(r', 4, 6) == Slice(r, 4, 6);
    }
  }

  /**
   * A data reply read back by the device as a record is a setpoint: the
   * device acknowledges it and stores the temperature the reply reported.
   */
  lemma ReplyIsSetpoint(t: nat, u: nat)
    requires t < 10000
    ensures Respond(u, ReplyFrame(t)) == Transition(Reply(AckFrame()), t)
  {
    var f := ReplyFrame(t);
    var s := FormatTemperature(t);
    assert Slice(f, 2, 4) == f[2..4] == s[0..2];
    assert Slice(f, 4, 6) == f[4..6] == s[3..5];
    ParseFormatRoundTrip(t);
  }

  /**
   * A data record too short for four payload digits still sets a value:
   * in `STX '1' '3' '1' CR` the fraction is the CR alone, which `float()`
   * strips, so 31.00 is stored.
   */
  lemma ShortDataRecord(t: nat, r: string)
    requires |r| == 5 && r[0] as int == STX && r[2] == '3' && r[3] == '1' && r[4] as int == CR
    ensures Respond(t, r) == Transition(Reply(AckFrame()), 3100)
  {
    assert Slice(r, 2, 4) == [Digit(3), Digit(1)];
    assert FractionDigits(Slice(r, 4, 6)) == [] by {
      assert Slice(r, 4, 6) == [r[4]];
    }
    PairValue(3, 1);
  }

  /**
   * A data record whose second whole-degree character is an ASCII character
   * other than a digit, whitespace, '+' or '-' raises ValueError: no
   * stripping removes it, and no number ends in it.
   */
  lemma StrayPayloadCharacter(t: nat, r: string)
    requires |r| >= 4 && r[0] as int == STX && !IsDigit(r[3]) && !IsSpace(r[3]) && r[3] != '+'
    requires r[3] != '-' && r[3] as int < 128
    ensures Respond(t, r) == Transition(Crash(NotANumber), t)
  {
    var whole := Slice(r, 2, 4);
    assert whole == [r[2], r[3]];
    var stripped := StripLeading(whole);
    assert |stripped| > 0 && stripped[|stripped| - 1] == r[3];
    var w := WholeDigits(whole);
    assert |w| > 0 && !IsDigit(w[|w| - 1]);
    assert !AllDigits(w);
    assert ParseSetpoint(r) == Failure(NotANumber);
    assert VerifyChecksum(r).Success?;
    assert Respond(t, r) == Dispatch(t, r);
  }

  /** The outcomes of a run of the main loop, and the temperature it leaves. */
  datatype Trace = Trace(outcomes: seq<Outcome>, temperature: nat)

  function Then(earlier: seq<Outcome>, later: Trace): Trace
  {
    Trace(earlier + later.outcomes, later.temperature)
  }

  /**
   * The main loop over a finite sequence of inbound records: one outcome per
   * record read, stopping after the first pass that raises.
   */
  function Run(t: nat, records: seq<string>): (tr: Trace)
    ensures |tr.outcomes| <= |records|
    ensures forall i :: 0 <= i < |tr.outcomes| - 1 ==> !tr.outcomes[i].Crash?
    ensures |tr.outcomes| < |records| ==> |tr.outcomes| > 0 && tr.outcomes[|tr.outcomes| - 1].Crash?
    decreases |records|
  {
    if records == [] then Trace([], t)
    else
      var x := Respond(t, records[0]);
      if x.outcome.Crash? then Trace([x.outcome], x.temperature)
      else Then([x.outcome], Run(x.temperature, records[1..]))
  }

  /**
   * A run in which no pass raises is the passes one after the other: given
   * the temperature before each record (`ts[i]`, with `ts[|records|]` the one
   * left at the end), the run reports each pass's outcome and ends at the
   * last temperature.
   */
  lemma {:induction false} RunWithoutFault(ts: seq<nat>, records: seq<string>, outcomes: seq<Outcome>)
    requires |ts| == |records| + 1 && |outcomes| == |records|
    requires forall i :: 0 <= i < |records| ==>
               !outcomes[i].Crash? && Respond(ts[i], records[i]) == Transition(outcomes[i], ts[i + 1])
    ensures Run(ts[0], records) == Trace(outcomes, ts[|records|])
    decreases |records|
  {
    if records != [] {
      assert Respond(ts[0], records[0]) == Transition(outcomes[0], ts[1]);
      RunWithoutFault(ts[1..], records[1..], outcomes[1..]);
      assert outcomes == [outcomes[0]] + outcomes[1..];
    }
  }

  /** A pass that does not raise is followed by the run over the remaining records. */
  lemma RunStep(t: nat, r: string, rest: seq<string>, o: Outcome, t': nat)
    requires !o.Crash? && Respond(t, r) == Transition(o, t')
    ensures Run(t, [r] + rest) == Then([o], Run(t', rest))
  {
    assert ([r] + rest)[0] == r && ([r] + rest)[1..] == rest;
  }

  /** The run from record `k` on, given what the pass over record `k` does. */
  lemma RunFrom(t: nat, records: seq<string>, k: nat, o: Outcome, t': nat)
    requires k < |records| && Respond(t, records[k]) == Transition(o, t')
    ensures Run(t, records[k..]) == if o.Crash? then Trace([o], t') else Then([o], Run(t', records[k + 1..]))
  {
    assert records[k..][0] == records[k] && records[k..][1..] == records[k + 1..];
  }

  /** The emulated device: its one mutable field is the stored setpoint. */
  class EmulatedDevice {
    var temperature: nat

    ghost predicate Valid()
      reads this
    {
      temperature < 10000
    }

    constructor ()
      ensures Valid() && temperature == INITIAL_TEMPERATURE
    {
      temperature := INITIAL_TEMPERATURE;
    }

    /** set_temperature */
    method SetTemperature(deg: nat)
      modifies this
      ensures temperature == deg
    {
      temperature := deg;
    }

    /** return_set_temperature: report the stored temperature. */
    method ReturnSetTemperature() returns (res: Result<string>)
      ensures res == if temperature < 10000 then Success(ReplyFrame(temperature)) else Failure(TemperatureRange)
    {
      res := ReturnTemperature(temperature);
    }

    /** return_internal_sensor_temperature: report the fixed reading. */
    method ReturnInternalSensorTemperature() returns (res: Result<string>)
      ensures res == Success(ReplyFrame(INTERNAL_SENSOR_READING))
    {
      res := ReturnTemperature(INTERNAL_SENSOR_READING);
    }

    /** One pass of the main loop on the record `r` just read. */
    method Step(r: string) returns (out: Outcome)
      modifies this
      ensures old(Valid()) ==> Valid()
      ensures Transition(out, temperature) == Respond(old(temperature), r)
    {
      var verified := VerifyChecksum(r);  // the verdict itself is only logged
      if verified.Failure? {
        return Crash(verified.error);
      }
      if PacketType(r) == STX {
        var setpoint := ParseSetpoint(r);
        if setpoint.Failure? {
          return Crash(setpoint.error);
        }
        SetTemperature(setpoint.value);
        return Reply(AckFrame());
      } else if PacketType(r) == ENQ {
        out := NoReply;
        if EnqCommand(r) == SET_TEMPERATURE {
          var res := ReturnSetTemperature();
          if res.Failure? {
            return Crash(res.error);
          }
          out := Reply(res.value);
        }
        if EnqCommand(r) == READ_INTERNAL_SENSOR {
          var res := ReturnInternalSensorTemperature();
          out := Reply(res.value);
        }
      } else {
        out := NoReply;
      }
    }

    /** The main loop, fed a finite sequence of records. */
    method Serve(records: seq<string>) returns (outcomes: seq<Outcome>)
      modifies this
      ensures old(Valid()) ==> Valid()
      ensures Trace(outcomes, temperature) == Run(old(temperature), records)
    {
      outcomes := [];
      var k := 0;
      while k < |records|
        invariant 0 <= k <= |records| && (old(Valid()) ==> Valid())
        invariant Run(old(temperature), records) == Then(outcomes, Run(temperature, records[k..]))
      {
        ghost var before := temperature;
        var out := Step(records[k]);
        RunFrom(before, records, k, out, temperature);
        outcomes := outcomes + [out];
        k := k + 1;
        if out.Crash? {
          return;
        }
      }
    }
  }
}

=== FILE: temperature.dfy ===
/**
 * The temperature text of the protocol. A temperature is an integer number
 * of hundredths of a degree (the Python code holds it as a float; every value
 * it exchanges has two decimal places). The device renders it with `%05.2f`
 * and reads a setpoint back with `float(whole + '.' + frac)`.
 */
module Temperature {
  import opened Wire

  predicate IsDigit(c: char)
  {
    '0' <= c <= '9'
  }

  predicate AllDigits(s: string)
  {
    forall k :: 0 <= k < |s| ==> IsDigit(s[k])
  }

  function Digit(d: nat): (c: char)
    requires d < 10
    ensures IsDigit(c) && c as int - 0x30 == d
  {
    (0x30 + d) as char
  }

  /** The number a string of decimal digits denotes (0 for the empty string). */
  function DigitsValue(s: string): (v: nat)
    requires AllDigits(s)
    ensures |s| == 1 ==> v < 10
    ensures |s| <= 2 ==> v < 100
  {
    if |s| == 0 then 0 else DigitsValue(s[..|s| - 1]) * 10 + (s[|s| - 1] as int - 0x30)
  }

  /** The decimal rendering of `n`, without leading zeros (`"%d" % n`). */
  function DecimalString(n: nat): (s: string)
    ensures 1 <= |s| && AllDigits(s)
    ensures DigitsValue(s) == n
    ensures |s| == 1 <==> n < 10
    ensures |s| <= 2 <==> n < 100
    decreases n
  {
    if n < 10 then [Digit(n)]
    else
      var s := DecimalString(n / 10) + [Digit(n % 10)];
      assert s[..|s| - 1] == DecimalString(n / 10);
      s
  }

  /**
   * `"%05.2f" % (t / 100)`: the whole degrees, a point, two decimals, and
   * (the `0` flag) zeros in front up to a width of five; the unpadded text
   * has at least four characters, so at most one zero is added. It is longer
   * than five characters exactly when the temperature is 100.00 or more.
   */
  function FormatTemperature(t: nat): (s: string)
    ensures |s| >= 5 && s[|s| - 3] == '.'
    ensures |s| > 5 <==> t >= 10000
  {
    var whole := DecimalString(t / 100);
    (if |whole| == 1 then "0" else "") + whole + "." + [Digit(t / 10 % 10), Digit(t % 10)]
  }

  /** Below 100.00 degrees the rendering is "DD.DD". */
  lemma FormatShape(t: nat)
    requires t < 10000
    ensures var s := FormatTemperature(t);
            |s| == 5 && s[0] == Digit(t / 1000) && s[1] == Digit(t / 100 % 10) && s[2] == '.' &&
            s[3] == Digit(t / 10 % 10) && s[4] == Digit(t % 10)
  {
    TwoDigitDecimal(t / 100);
    assert t / 100 / 10 == t / 1000;
  }

  /** Below 100 the decimal rendering is one or two digits. */
  lemma TwoDigitDecimal(n: nat)
    ensures n < 10 ==> DecimalString(n) == [Digit(n)]
    ensures 10 <= n < 100 ==> DecimalString(n) == [Digit(n / 10), Digit(n % 10)]
  {
    if 10 <= n < 100 {
      assert DecimalString(n / 10) == [Digit(n / 10)];
    }
  }

  /** Hundredths denoted by the fractional digits: "5" is 50, "05" is 5, "" is 0. */
  function FractionValue(frac: string): (h: nat)
    requires |frac| <= 2 && AllDigits(frac)
    ensures h < 100
  {
    if |frac| == 1 then DigitsValue(frac) * 10 else DigitsValue(frac)
  }

  /**
   * The characters `float()` strips from both ends of its argument: the
   * ASCII ones among Python's whitespace (space, TAB, LF, VT, FF, CR and the
   * separators 0x1c..0x1f).
   */
  predicate IsSpace(c: char)
  {
    c == ' ' || 0x09 <= c as int <= 0x0d || 0x1c <= c as int <= 0x1f
  }

  /** `s` with its leading whitespace removed. */
  function StripLeading(s: string): (r: string)
    ensures |r| <= |s| && r == s[|s| - |r|..]
    ensures forall k :: 0 <= k < |s| - |r| ==> IsSpace(s[k])
    ensures |r| > 0 ==> !IsSpace(r[0])
  {
    if |s| > 0 && IsSpace(s[0]) then StripLeading(s[1..]) else s
  }

  /** `s` with its trailing whitespace removed. */
  function StripTrailing(s: string): (r: string)
    ensures |r| <= |s| && r == s[..|r|]
    ensures forall k :: |r| <= k < |s| ==> IsSpace(s[k])
    ensures |r| > 0 ==> !IsSpace(r[|r| - 1])
  {
    if |s| > 0 && IsSpace(s[|s| - 1]) then StripTrailing(s[..|s| - 1]) else s
  }

  /** The digits after an optional leading '+'. */
  function Unsigned(s: string): string
  {
    if |s| > 0 && s[0] == '+' then s[1..] else s
  }

  /** Stripping leaves a string of digits alone. */
  lemma {:induction false} DigitsUnstripped(s: string)
    ensures AllDigits(s) ==> StripLeading(s) == s && StripTrailing(s) == s
  {
    if AllDigits(s) && |s| > 0 {
      assert IsDigit(s[0]) && IsDigit(s[|s| - 1]);
    }
  }

  /** The integer part `float()` reads from the characters before the point. */
  function WholeDigits(whole: string): (w: string)
    ensures |w| <= |whole|
    ensures AllDigits(whole) ==> w == whole
  {
    DigitsUnstripped(whole);
    Unsigned(StripLeading(whole))
  }

  /** The fraction `float()` reads from the characters after the point. */
  function FractionDigits(frac: string): (f: string)
    ensures |f| <= |frac|
    ensures AllDigits(frac) ==> f == frac
  {
    DigitsUnstripped(frac);
    StripTrailing(frac)
  }

  /**
   * `float(whole + '.' + frac)` in hundredths, for the at most two characters
   * on each side of the point that the device ever passes. Surrounding
   * whitespace is stripped and a '+' may open the number; then digits on
   * either side of the point, at least one in all, are a number, and
   * anything else raises ValueError.
   */
  function ParseTemperature(whole: string, frac: string): (r: Result<nat>)
    requires |whole| <= 2 && |frac| <= 2
    ensures var w, f := WholeDigits(whole), FractionDigits(frac);
            r.Success? <==> AllDigits(w) && AllDigits(f) && |w| + |f| > 0
    ensures r.Failure? ==> r.error == NotANumber
    ensures r.Success? ==> r.value < 10000
  {
    var w, f := WholeDigits(whole), FractionDigits(frac);
    if AllDigits(w) && AllDigits(f) && |w| + |f| > 0 then
      Success(DigitsValue(w) * 100 + FractionValue(f))
    else
      Failure(NotANumber)
  }

  /**
   * Digits on both sides are not touched by the stripping: they parse to
   * their value in hundredths, an empty side counting as zero, unless there
   * is no digit at all (`float('.')` raises).
   */
  lemma ParseDigits(whole: string, frac: string)
    requires |whole| <= 2 && |frac| <= 2 && AllDigits(whole) && AllDigits(frac)
    ensures |whole| + |frac| > 0 <==> ParseTemperature(whole, frac).Success?
    ensures |whole| + |frac| > 0 ==>
              ParseTemperature(whole, frac).value == DigitsValue(whole) * 100 + FractionValue(frac)
  {
  }

  /**
   * Reading back the rendering: the four digits of `%05.2f` (without the
   * point), split two and two as the device splits a setpoint, parse to the
   * temperature that was rendered.
   */
  lemma ParseFormatRoundTrip(t: nat)
    requires t < 10000
    ensures var s := FormatTemperature(t);
            ParseTemperature(s[0..2], s[3..5]) == Success(t)
  {
    FormatShape(t);
    ParseShape(FormatTemperature(t), t);
  }

  /** A rendering of the shape FormatShape gives, split around its point, parses to `t`. */
  lemma ParseShape(s: string, t: nat)
    requires t < 10000 && |s| == 5
    requires s[0] == Digit(t / 1000) && s[1] == Digit(t / 100 % 10)
    requires s[3] == Digit(t / 10 % 10) && s[4] == Digit(t % 10)
    ensures ParseTemperature(s[0..2], s[3..5]) == Success(t)
  {
    var a, b, c, d := t / 1000, t / 100 % 10, t / 10 % 10, t % 10;
    DecimalPlaces(t);
    ParseRendering(s, a, b, c, d, t);
  }

  /** A five-character rendering "DD.DD", split around its point, parses to its digits' value. */
  lemma ParseRendering(s: string, a: nat, b: nat, c: nat, d: nat, t: nat)
    requires a < 10 && b < 10 && c < 10 && d < 10 && |s| == 5
    requires s[0] == Digit(a) && s[1] == Digit(b) && s[3] == Digit(c) && s[4] == Digit(d)
    requires t == (a * 10 + b) * 100 + (c * 10 + d)
    ensures ParseTemperature(s[0..2], s[3..5]) == Success(t)
  {
    var w, f := s[0..2], s[3..5];
    assert w == [Digit(a), Digit(b)];
    assert f == [Digit(c), Digit(d)];
    ParseFourDigits(a, b, c, d);
    assert ParseTemperature(w, f) == Success(t);
  }

  /** Two digits on each side of the point parse to their value in hundredths. */
  lemma ParseFourDigits(a: nat, b: nat, c: nat, d: nat)
    requires a < 10 && b < 10 && c < 10 && d < 10
    ensures ParseTemperature([Digit(a), Digit(b)], [Digit(c), Digit(d)]) == Success((a * 10 + b) * 100 + (c * 10 + d))
  {
    var whole, frac := [Digit(a), Digit(b)], [Digit(c), Digit(d)];
    PairValue(a, b);
    PairValue(c, d);
    ParseDigits(whole, frac);
  }

  lemma DecimalPlaces(t: nat)
    requires t < 10000
    ensures t / 1000 < 10
    ensures (t / 1000 * 10 + t / 100 % 10) * 100 + (t / 10 % 10 * 10 + t % 10) == t
  {
    var q := t / 100;
    assert t / 1000 == q / 10;
    assert t / 10 % 10 * 10 + t % 10 == t % 100;
  }

  lemma PairValue(hi: nat, lo: nat)
    requires hi < 10 && lo < 10
    ensures AllDigits([Digit(hi), Digit(lo)]) && DigitsValue([Digit(hi), Digit(lo)]) == hi * 10 + lo
  {
    assert [Digit(hi), Digit(lo)][..1] == [Digit(hi)];
  }

  /**
   * The other direction: four payload digits, parsed as the device parses a
   * setpoint and rendered again with `%05.2f`, come back unchanged.
   */
  lemma FormatParseRoundTrip(whole: string, frac: string)
    requires |whole| == 2 && |frac| == 2 && AllDigits(whole) && AllDigits(frac)
    ensures ParseTemperature(whole, frac).Success?
    ensures FormatTemperature(ParseTemperature(whole, frac).value) == whole + "." + frac
  {
    var a, b := whole[0] as int - 0x30, whole[1] as int - 0x30;
    var c, d := frac[0] as int - 0x30, frac[1] as int - 0x30;
    assert whole == [Digit(a), Digit(b)] && frac == [Digit(c), Digit(d)];
    PairValue(a, b);
    PairValue(c, d);
    var t := (a * 10 + b) * 100 + (c * 10 + d);
    assert ParseTemperature(whole, frac) == Success(t);
    DigitsOfHundredths(a, b, c, d);
    FormatShape(t);
    assert whole + "." + frac == [Digit(a), Digit(b), '.', Digit(c), Digit(d)];
  }

  lemma DigitsOfHundredths(a: nat, b: nat, c: nat, d: nat)
    requires a < 10 && b < 10 && c < 10 && d < 10
    ensures var t := (a * 10 + b) * 100 + (c * 10 + d);
            t < 10000 && t / 1000 == a && t / 100 % 10 == b && t / 10 % 10 == c && t % 10 == d
  {
    var t := (a * 10 + b) * 100 + (c * 10 + d);
    assert t == a * 1000 + b * 100 + c * 10 + d;
    assert t / 10 == a * 100 + b * 10 + c;
    assert t / 100 == a * 10 + b;
  }
}

=== FILE: wire.dfy ===
/**
 * The vocabulary of the chiller's serial line protocol, shared by the device
 * emulator and the controller script: the control bytes that frame a record,
 * the command bytes, and the failures the Python code can raise.
 *
 * A record is a `string`: the Python code reads it through a text wrapper and
 * compares `ord(c)` against the integer codes below, which the model writes
 * as `c as int`.
 */
module Wire {

  // Control codes (class ControlCode)
  const SOH: nat := 0x01
  const STX: nat := 0x02
  const ETX: nat := 0x03
  const ENQ: nat := 0x05
  const ACK: nat := 0x06
  const CR: nat := 0x0d

  // Command codes (class CommandCode); the device answers only the first two
  const SET_TEMPERATURE: nat := 0x31
  const READ_INTERNAL_SENSOR: nat := 0x32
  const READ_EXTERNAL_SENSOR: nat := 0x33
  const READ_ALARM_STATUS: nat := 0x34
  const SET_OFFSET: nat := 0x36
  const SET_TEMPERATURE_FRAM: nat := 0x37
  const SET_OFFSET_FRAM: nat := 0x38

  /** The exceptions the modelled Python code can raise. */
  datatype Fault =
    | IndexOutOfRange    // IndexError from indexing a record that is too short
    | NotANumber         // ValueError from float() on a setpoint payload
    | TemperatureRange   // Exception("temperature range") from return_temperature

  /** A value, or the exception that replaced it. */
  datatype Result<T> = Success(value: T) | Failure(error: Fault)

  /** Python's `s[i:j]` for non-negative bounds: indices past the end are clamped. */
  function Slice(s: string, i: nat, j: nat): (r: string)
    requires i <= j
    ensures |r| == (if j <= |s| then j - i else if i <= |s| then |s| - i else 0)
    ensures forall k :: 0 <= k < |r| ==> r[k] == s[i + k]
  {
    if j <= |s| then s[i..j] else if i <= |s| then s[i..] else []
  }
}
